=== FILE: README.md ===
# Page transitions, mobile nav and history of a static site's front-end

This project models the core of `js/bundle.js`, the script that gives a
server-rendered site "pjax" page transitions and a mobile navigation
toggle. Beneath its DOM calls it is a small set of state machines. The
model covers each one, and the DOM is replaced by plain records and small
classes:

- **Text** (`text.dfy`): `removeQuotes`, the regular-expression replace that
  unquotes the breakpoint name CSS exposes. The global replace is modelled as
  the left-to-right scan JavaScript performs: at each position the five
  alternatives are tried in order, and the one that matches is deleted. `^`
  only matches at position 0 and `$` only at the last character. `\s` is the
  ECMAScript whitespace set, written out code point by code point.
- **Dom** (`dom.dfy`): the ancestor walk of `getClosest` over a tree of node
  ids, and the `Element.prototype.matches` fallback scan over the results of
  `querySelectorAll`. A selector `[data-x]` is the marker attribute name
  `data-x`.
- **Fetch** (`fetch.dfy`): the outcome rule of `getContent`'s
  `onreadystatechange` handler. It waits until readyState DONE (4, WHATWG
  XMLHttpRequest Standard). It fulfils on the 2xx class of section 15.3 of
  RFC 9110 and otherwise rejects with `{status, statusText}`. The module also
  covers the `method || 'GET'` default and the single settlement of the
  promise.
- **Animation** (`animation.dfy`): `animate` over an `Element` class with a
  `hidden` flag, a class set and its registered one-shot `animationend`
  listeners.
- **MobileNav** (`mobilenav.dfy`): the `aria-expanded` / `aria-hidden` /
  `is-inactive` state. It covers `toggleMobileNavigation`, the resize
  collapse, the Escape handler and the initial setting. Each is a pure
  function on a `NavState` value and a method of the `NavToggle` class.
- **SessionHistory** (`history.dfy`): history as (title, url) entries with a
  cursor. `pushState` truncates the forward entries and appends;
  `replaceState` overwrites the current entry. `updateHistory` chooses
  between the two by the `isPopstate` flag.
- **ActiveNav** (`activenav.dfy`): `setActiveNavItem`, an in-place pass over
  an array of nav links.
- **Pipeline** (`pipeline.dfy`): a `Page` class. It holds the title, the
  history, main's child list, the nav links, the nav toggle, the `isPopstate`
  flag, the console and the scroll-to-top count. Its methods are the
  handlers and the pipeline events: `ClickEventHandler`,
  `PopstateEventHandler`, `LoadContent`, `FetchRejected`, `FetchResolved`,
  `ExitAnimationEnd` and `EnterAnimationEnd`. They keep the code's order.
  Title, history and the active nav link change when the request is
  fulfilled. Both animations start then. Old content is removed, the nav
  collapsed, new content appended, the window scrolled and the flag cleared
  only when the exit animation ends.

Three behaviours of the code worth knowing:
- A fetched document without main content does not stop the transition. The
  old content is still removed when its exit animation ends. Then
  `main.appendChild(null)` throws, so nothing is appended, the window does not
  scroll and `isPopstate` stays set.
- `isPopstate` is reset only at the end of a successful swap. After a
  rejected popstate load it stays `true`, so the next link navigation
  replaces the current history entry instead of pushing one.
- `toggleMobileNavigation` flips `aria-expanded` and `aria-hidden` each by
  its own test, never one from the other. When both read "true" or "false",
  attributes out of step stay out of step (`MobileNav.ToggleKeepsOutOfStep`)
  and attributes in step stay in step (`MobileNav.ToggleKeepsInStep`). Any
  other string is read as "not false" for `aria-expanded` and "not true" for
  `aria-hidden`, so one toggle can bring such attributes into step.

## Model

| member | source | states |
|---|---|---|
| `Text.QuoteRunEnd` | js/bundle.js:110 | the `^['"]+` alternative consumes exactly the maximal run of quotes |
| `Text.SpaceRunEnd` | js/bundle.js:110 | the `\s+` alternative consumes exactly the maximal run of whitespace |
| `Text.ClosingUnit` | js/bundle.js:110 | one `;\s?}` unit is `;}` or `;` + one whitespace + `}`; a unit present at the position is always found, with its length |
| `Text.ClosingRunEnd` | js/bundle.js:110 | the `(;\s?})+` alternative consumes a chain of whole units, each found where the previous one ends, consumes something whenever a unit starts there, and stops only where no further unit starts |
| `Text.ClosingRunIsChain` | js/bundle.js:110 | the alternative consumes exactly a chain of units that no further unit follows, so it never overruns a `}` that is not part of a unit |
| `Text.ScanStep` | js/bundle.js:110 | one step of the global replace either keeps exactly the current character or deletes a non-empty stretch holding no ordinary character |
| `Text.Strip` | js/bundle.js:110 | the replaced string is never longer than the input and holds no whitespace and no backslash; the deletion of quotes and of `;}` runs is stated by `Text.UnquotesAnyWord` and `Text.DropsClosingRun` |
| `Text.RemoveQuotes` | js/bundle.js:108-113 | a non-string is returned unchanged; a string comes back no longer, without whitespace or backslash; `Text.UnquotesAnyWord` and `Text.DropsClosingRun` state what it deletes around and inside a word |
| `Text.StripKeepsOrdinary` | js/bundle.js:110 | every character other than a quote, whitespace, `\`, `;` or `}` survives, as many times as it occurs |
| `Text.StripFixesClean` | js/bundle.js:110 | a string with no whitespace, backslash or `;` and no quote at either end is returned unchanged |
| `Text.UnquotesBreakpoint` | js/bundle.js:117-120 | the CSS value `"small"` unquotes to `small` |
| `Text.InertStep` | js/bundle.js:110 | at a character no alternative can match where it stands, one scan step keeps exactly that character |
| `Text.InertKept` | js/bundle.js:110 | a stretch of such characters is kept as it is |
| `Text.UnquotesAnyWord` | js/bundle.js:108-113 | a word between a run of opening quotes and a run of closing quotes, single or double in any mix, loses the whole opening run and only the last closing quote (`""small""` gives `small"`); quotes alone vanish |
| `Text.DeletesRunAt` | js/bundle.js:110 | at the start of a maximal chain of units one scan step deletes the whole chain |
| `Text.DropsChainAt` | js/bundle.js:110 | ordinary text, a maximal chain of units, ordinary text: the chain is deleted and both sides are kept |
| `Text.DropsClosingRun` | js/bundle.js:108-113 | a non-empty run of `;}` / `; }` units between ordinary text is deleted whole and the text on both sides is kept (`a;}b` gives `ab`) |
| `Dom.ClosestIsFirstMatch` | js/bundle.js:72-76 | the result is the first matching node of the chain elem, parent, ... (stopping before `document` or null), and null exactly when no node of the chain matches |
| `Dom.GetClosest` | js/bundle.js:53-78 | the loop returns the closest matching ancestor, which carries the marker and is not the document |
| `Dom.MatchesFallback` | js/bundle.js:63-67 | the backward scan answers true exactly when the element is among the query results |
| `Fetch.OnReadyStateChange` | js/bundle.js:167-184 | nothing happens before readyState 4; at 4 the promise resolves exactly for 200 <= status < 300 and otherwise rejects with the status and its text |
| `Fetch.RequestMethod` | js/bundle.js:187 | a missing or empty method means GET; any other is used as given |
| `Fetch.FirstDone` | js/bundle.js:170 | finds the first handler call at readyState 4, or reports there is none |
| `Fetch.SettledIsFinal` | js/bundle.js:164-192 | once resolved or rejected, later handler calls leave the promise as it is |
| `Fetch.FirstDoneDecides` | js/bundle.js:164-192 | the promise settles exactly once: the first readyState-4 call alone decides it, and it stays pending without one |
| `Animation.Animate` | js/bundle.js:124-155 | with no element or no animation name nothing changes; otherwise `hidden` is cleared, the class added and one listener registered |
| `Animation.Element.AnimationEnd` | js/bundle.js:136-154 | each listener removes its class, sets `hidden` iff asked, deregisters and calls its callback once; with no listener left, a further end event changes nothing and calls nothing |
| `MobileNav.Toggled` | js/bundle.js:291-308 | `aria-expanded` becomes "true" iff it was "false"; the nav opens iff `aria-hidden` was "true"; afterwards the body is inactive exactly when the nav is open |
| `MobileNav.ToggleTwice` | js/bundle.js:291-308 | toggling twice restores both attributes when they start as "true"/"false" |
| `MobileNav.ToggleKeepsInStep` | js/bundle.js:291-308 | from boolean attributes in step, a toggle flips the nav and keeps the button in step |
| `MobileNav.ToggleKeepsOutOfStep` | js/bundle.js:291-308 | from boolean attributes out of step, a toggle flips the nav and they stay out of step |
| `MobileNav.Collapsed` | js/bundle.js:339-345 | an open nav on the small breakpoint is hidden, un-expanded, and the body made active; otherwise nothing changes |
| `MobileNav.CollapseIdempotent` | js/bundle.js:339-345 | collapsing twice is the same as collapsing once |
| `MobileNav.AfterKey` | js/bundle.js:411-421 | Escape or Esc closes an open nav, makes the body active and flips `aria-expanded` by its own test ("true" iff it read "false"); every other key or state is left alone |
| `MobileNav.EscapeNeverOpens` | js/bundle.js:416-420 | with the nav closed, no key changes anything |
| `MobileNav.Initial` | js/bundle.js:437-442 | at start-up the nav is shown exactly off the small breakpoint; nothing else is set |
| `MobileNav.NavToggle.Toggle` | js/bundle.js:291-308 | the attributes and body class become `Toggled` of the old state |
| `MobileNav.NavToggle.ResizeEventHandler` | js/bundle.js:339-345 | the state becomes `Collapsed` of the old state |
| `MobileNav.NavToggle.KeydownEventHandler` | js/bundle.js:411-421 | the state becomes `AfterKey` of the old state |
| `MobileNav.NavToggle.SetInitial` | js/bundle.js:437-442 | the state becomes `Initial` of the old state |
| `SessionHistory.Push` | js/bundle.js:275 | the new entry is current, the entries up to the old cursor are kept and every forward entry is dropped |
| `SessionHistory.Replace` | js/bundle.js:273 | the new entry is current; length, cursor and every other entry are unchanged |
| `SessionHistory.UpdateHistory` | js/bundle.js:271-277 | the (title, url) entry becomes current; with the popstate flag the length, cursor and every other entry are unchanged; without it the cursor advances by one, the entries up to the old cursor are kept and every forward entry is dropped |
| `SessionHistory.Traverse` | js/bundle.js:398-408 | the browser's back/forward move before a popstate event keeps every entry and makes the chosen one current, so `location.href` is its url |
| `SessionHistory.BackAfterPush` | js/bundle.js:275 | going back after a push lands on the entry that was current before it |
| `ActiveNav.Marked` | js/bundle.js:282-286 | a link has `is-active` iff its href equals the url exactly; its href and other classes are unchanged |
| `ActiveNav.MarkedAll` | js/bundle.js:280-288 | every link is marked as `Marked` says, and the list keeps its length |
| `ActiveNav.MarkedAllIdempotent` | js/bundle.js:280-288 | a second pass with the same url changes nothing |
| `ActiveNav.SetActiveNavItem` | js/bundle.js:280-288 | the in-place pass leaves the array equal to `MarkedAll` of its old contents |
| `Pipeline.FirstMarked` | js/bundle.js:207 | the old content is the first child of main with the main-content marker, or none when no child has it |
| `Pipeline.Without` | js/bundle.js:221 | removing the old content leaves every other child and only those; a list without it is unchanged |
| `Pipeline.DistinctAppend` | js/bundle.js:229 | appending a child that is not yet in a list without repeats keeps it without repeats |
| `Pipeline.WithoutKeepsDistinct` | js/bundle.js:221 | removing a child from a list without repeats keeps it without repeats |
| `Pipeline.RemovedInPlace` | js/bundle.js:221 | in a list without repeats, removing the child found at any place leaves exactly the children before and after that place |
| `Pipeline.WithoutOnce` | js/bundle.js:221 | a child that occurs once is cut out of its place and the other children keep their order |
| `Pipeline.Breakpoint` | js/bundle.js:117-120 | `checkMedia` returns the CSS value unquoted: never longer, with no whitespace and no backslash |
| `Pipeline.BreakpointUnquotes` | js/bundle.js:117-120 | a breakpoint name CSS writes between quotes reads as the bare name |
| `Pipeline.Page.constructor` | js/bundle.js:433-442 | from a child list without repeats, the current history entry is replaced by (title, location), the nav is set by the breakpoint, the flag is clear, no request is in flight and no exit or enter animation is pending |
| `Pipeline.Page.LoadContent` | js/bundle.js:196-197 | the request for the url is issued and nothing else changes yet, the observer root included |
| `Pipeline.Page.ClickEventHandler` | js/bundle.js:348-375 | a click in the toggle toggles the nav, also during a run; a page-link click prevents the default iff the meta key is up, and loads iff also its href differs from `location.href`; otherwise nothing is loaded; title, history, content and the observer root are untouched |
| `Pipeline.Page.PopstateEventHandler` | js/bundle.js:398-408 | the flag is set and `location.href` is always loaded; nothing else changes, the observer root included |
| `Pipeline.Page.Traverse` | js/bundle.js:398-408 | the browser's back/forward move only changes the history cursor; the page is otherwise untouched |
| `Pipeline.Page.FetchRejected` | js/bundle.js:265-267 | a rejection (a non-2xx status) logs exactly one line and leaves title, history, content, scroll, the popstate flag and the observer root unchanged |
| `Pipeline.Page.FetchResolved` | js/bundle.js:200-262 | without a title, one log line and nothing else changes; otherwise the title and history are updated, both animations start, every link is active iff its href is the url, main's list and every child but the old content are untouched, and the observer root is kept |
| `Pipeline.Page.UpdateHistory` | js/bundle.js:271-277 | the history becomes `SessionHistory.UpdateHistory` under the current flag |
| `Pipeline.Page.ApplyResponse` | js/bundle.js:210-261 | title, history, both animations and the nav links are updated in the code's order; every other child of main is untouched |
| `Pipeline.Page.StartTransition` | js/bundle.js:217-258 | the old content gets the exit animation and the swap callback; the new content gets the enter animation and the re-init callback |
| `Pipeline.Page.ExitAnimationEnd` | js/bundle.js:218-241 | only now is the old content removed, the other children keeping their order; the nav is toggled shut iff open on the small breakpoint; the new content, itself untouched, is appended, the window scrolls to top iff not a popstate load and the flag is cleared; with no new content the append throws and none of that happens; every other child, the media value and the observer root are unchanged; without a pending exit nothing changes |
| `Pipeline.Page.FinishExit` | js/bundle.js:136-154 | the exit listener removes itself and runs the swap callback, with all the effects listed for `ExitAnimationEnd` when an exit is pending |
| `Pipeline.Page.SwapCallback` | js/bundle.js:219-241 | the body of the exit callback, in the code's order, including the throw on a missing new content |
| `Pipeline.Page.RemoveChild` | js/bundle.js:221 | the old content leaves main, which keeps no repeats; a detached new content stays detached |
| `Pipeline.Page.CollapseOnSmall` | js/bundle.js:223-226 | the nav is toggled iff it is open and the breakpoint is small; otherwise its state is unchanged |
| `Pipeline.Page.AppendEntering` | js/bundle.js:229 | the new content becomes main's last child, after every earlier child, and main keeps no repeats |
| `Pipeline.Page.EnterAnimationEnd` | js/bundle.js:244-258 | once the new content is attached its enter animation end re-initialises the observers on it and touches nothing else; while it is detached nothing changes |
| `Pipeline.Page.ResizeEventHandler` | js/bundle.js:339-345 | the nav state becomes `Collapsed` under the breakpoint the new viewport reports; nothing of the pipeline changes |
| `Pipeline.Page.KeydownEventHandler` | js/bundle.js:411-421 | the nav state becomes `AfterKey` of the old state |

Proof steps with no row of their own: `Text.StepKeepsCount`, `Text.InertSteps`, `Text.ConsChain`, `Text.ChainShift` and `Text.OrdinaryAround` serve `StripKeepsOrdinary`, `InertKept` and `DropsClosingRun`, and `Pipeline.DistinctAt` serves `RemovedInPlace`. They are sequence bookkeeping rather than behaviour of the code.

## Left out

- Parallax (`setScrollParallax`, lines 311-315, 253-257, 471-474): floating-point arithmetic and CSS transform strings.
- The IntersectionObserver and `onIntersection` (lines 318-331, 246-251, 464-468): the browser drives the callbacks with fractional ratios. The model only records, in `observerRoot`, which content the observers were last re-initialised on.
- `debounce` and the `requestAnimFrame` polyfill (lines 36-45, 81-104, 334-336): their only behaviour is event-loop timing. The resize handler is modelled as if it ran once per resize.
- XHR transport (lines 161-190): the model starts from each call of `onreadystatechange`. `Page.FetchRejected` and `Page.FetchResolved` are the two outcomes `Fetch.OnReadyStateChange` selects.
- HTML parsing through `innerHTML` (lines 203-204): the parsed response is a `ParsedDoc` record with an optional title and optional main content.
- `getComputedStyle` in `checkMedia` (line 118): the raw `content` value is the `media` string, an input that changes on resize.
- `window.scrollTo(0, 0)` is recorded as a counter of scrolls to the top. `scrollIntoView` is not modelled.
- The in-page anchor branch of `clickEventHandler` (lines 379-394): it relies on `getElementById` and `scrollIntoView`.
- Listener registration and the other start-up side effects (lines 430, 445-461).
- `document.querySelector('[data-main-content]')` searches the whole document. The model searches main's children only, and takes the old content's `parentNode` to be main.
- A node without an `href` reads as the empty string.
- Pipeline.Page.ClickEventHandler: requires `Idle()` when the click would load a page, so overlapping navigations are not modelled. The code has no guard, and callbacks of two runs can interleave. Toggle clicks, meta-key clicks and same-url clicks are modelled at any time.
- Pipeline.Page.PopstateEventHandler: requires `Idle()` for the same reason, since every popstate loads a page.
- Pipeline.Page.LoadContent: requires `Idle()` for the same reason.
- Pipeline.Page.FetchRejected: requires a non-2xx status, the only case in which `Fetch.OnReadyStateChange` rejects with a status. A network failure that reports status 0 is covered, since 0 is not 2xx.
- Pipeline.Page.FetchResolved: requires `Quiescent()` for the same reason: no animation callback of an earlier run may still be pending.

=== FILE: activenav.dfy ===
/**
 * `setActiveNavItem` of js/bundle.js: one pass over the nav links that gives
 * `is-active` to every link whose `href` equals the url exactly and takes it
 * from every other link.
 */
module ActiveNav {

  const ActiveClass := "is-active"

  /** A nav link: its resolved `href` and its class list. */
  datatype NavItem = NavItem(href: string, classes: set<string>)

  /** The effect of the pass on one link. */
  function Marked(item: NavItem, url: string): (r: NavItem)
    ensures r.href == item.href
    ensures ActiveClass in r.classes <==> item.href == url
    ensures r.classes - {ActiveClass} == item.classes - {ActiveClass}
  {
    if item.href == url then item.(classes := item.classes + {ActiveClass})
    else item.(classes := item.classes - {ActiveClass})
  }

  /** The effect of the pass on the whole list. */
  function MarkedAll(items: seq<NavItem>, url: string): (r: seq<NavItem>)
    ensures |r| == |items|
    ensures forall i :: 0 <= i < |items| ==> r[i] == Marked(items[i], url)
  {
    seq(|items|, i requires 0 <= i < |items| => Marked(items[i], url))
  }

  /** Marking is idempotent: a second pass with the same url changes nothing. */
  lemma MarkedAllIdempotent(items: seq<NavItem>, url: string)
    ensures MarkedAll(MarkedAll(items, url), url) == MarkedAll(items, url)
  {
    var once := MarkedAll(items, url);
    forall i | 0 <= i < |items|
      ensures Marked(once[i], url) == once[i]
    {
      var m := once[i];
      if m.href == url {
        assert m.classes + {ActiveClass} == m.classes;
      } else {
        assert m.classes - {ActiveClass} == m.classes;
      }
    }
  }

  /** navItems.forEach(...): the pass, in place. */
  method SetActiveNavItem(items: array<NavItem>, url: string)
    modifies items
    ensures items[..] == MarkedAll(old(items[..]), url)
    ensures forall i :: 0 <= i < items.Length ==>
      && items[i].href == old(items[i].href)
      && (ActiveClass in items[i].classes <==> items[i].href == url)
      && items[i].classes - {ActiveClass} == old(items[i].classes) - {ActiveClass}
  {
    var i := 0;
    while i < items.Length
      invariant 0 <= i <= items.Length
      invariant forall k :: 0 <= k < i ==> items[k] == Marked(old(items[k]), url)
      invariant forall k :: i <= k < items.Length ==> items[k] == old(items[k])
    {
      var elem := items[i];
      if elem.href == url {
        items[i] := elem.(classes := elem.classes + {ActiveClass});
      } else {
        items[i] := elem.(classes := elem.classes - {ActiveClass});
      }
      i := i + 1;
    }
  }
}

=== FILE: animation.dfy ===
/**
 * The animation driver `animate` of js/bundle.js. An element keeps its
 * `hidden` attribute, its class list and the `animationend` listeners
 * registered on it; each listener is one-shot and carries the callback it
 * will call (a token of type C).
 */
module Animation {
  import opened Wrappers

  /** An `endAnimation` listener: the class it removes, whether it hides, its callback. */
  datatype Listener<C> = Listener(animation: string, hides: bool, callback: Option<C>)

  /** The classes the listeners remove. */
  function Names<C>(ls: seq<Listener<C>>): set<string> {
    set i | 0 <= i < |ls| :: ls[i].animation
  }

  /** Whether some listener sets `hidden`. */
  predicate HidesAny<C>(ls: seq<Listener<C>>) {
    exists i :: 0 <= i < |ls| && ls[i].hides
  }

  /** The callbacks the listeners call, in registration order. */
  function Callbacks<C>(ls: seq<Listener<C>>): seq<C> {
    if ls == [] then []
    else (if ls[0].callback.Some? then [ls[0].callback.value] else []) + Callbacks(ls[1..])
  }

  class Element<C> {
    /** Whether the element carries the `data-main-content` marker. */
    const marked: bool
    var hidden: bool
    var classes: set<string>
    var listeners: seq<Listener<C>>

    constructor(marked: bool, hidden: bool, classes: set<string>)
      ensures this.marked == marked && this.hidden == hidden && this.classes == classes
      ensures listeners == []
    {
      this.marked := marked;
      this.hidden := hidden;
      this.classes := classes;
      listeners := [];
    }

    /**
     * The browser dispatches `animationend`: every listener registered at that
     * moment removes its class, sets `hidden` if asked to, deregisters itself
     * and calls its callback. With no listener left the event does nothing.
     */
    method AnimationEnd() returns (called: seq<C>)
      modifies this
      ensures listeners == []
      ensures classes == old(classes) - Names(old(listeners))
      ensures hidden == (old(hidden) || HidesAny(old(listeners)))
      ensures called == Callbacks(old(listeners))
      ensures old(listeners) == [] ==> called == [] && classes == old(classes) && hidden == old(hidden)
      ensures |old(listeners)| == 1 ==>
        var l := old(listeners)[0];
        && classes == old(classes) - {l.animation}
        && hidden == (old(hidden) || l.hides)
        && called == (if l.callback.Some? then [l.callback.value] else [])
    {
      called := Callbacks(listeners);
      classes := classes - Names(listeners);
      hidden := hidden || HidesAny(listeners);
      listeners := [];
    }
  }

  /**
   * animate(elem, animation, hide, callback): without an element or with an
   * empty animation name nothing happens; otherwise `hidden` is cleared, the
   * animation class added and one listener registered.
   */
  method Animate<C>(elem: Element?<C>, animation: string, hides: bool, callback: Option<C>)
    modifies elem
    ensures elem == null || animation == "" ==> elem == null || unchanged(elem)
    ensures elem != null && animation != "" ==>
      && !elem.hidden
      && elem.classes == old(elem.classes) + {animation}
      && elem.listeners == old(elem.listeners) + [Listener(animation, hides, callback)]
  {
    if elem == null || animation == "" {
      return;
    }
    elem.hidden := false;
    elem.classes := elem.classes + {animation};
    elem.listeners := elem.listeners + [Listener(animation, hides, callback)];
  }
}

=== FILE: dom.dfy ===
/**
 * Ancestor search (`getClosest` in js/bundle.js) over an abstract DOM tree.
 * A selector of the form `[data-x]` is modelled by the marker attribute name
 * `data-x`; an element matches it when it carries that attribute.
 */
module Dom {
  import opened Wrappers

  type NodeId = nat

  /**
   * The part of the document the handlers look at: each node's parent, its
   * attribute names and `href`, and the `document` node at the root. `depth`
   * grows from parent to child, which is what makes the tree a tree.
   */
  datatype Tree = Tree(
    parent: map<NodeId, NodeId>,
    attrs: map<NodeId, set<string>>,
    href: map<NodeId, string>,
    depth: map<NodeId, nat>,
    document: NodeId)
  {
    ghost predicate Valid() {
      forall n :: n in parent ==> n in depth && parent[n] in depth && depth[parent[n]] < depth[n]
    }

    /** `node.parentNode`, with None for null. */
    function ParentOf(n: NodeId): Option<NodeId> {
      if n in parent then Some(parent[n]) else None
    }

    /** `node.matches('[' + marker + ']')`. */
    predicate Matches(n: NodeId, marker: string) {
      n in attrs && marker in attrs[n]
    }

    /** `node.href`; a node without the attribute reads as the empty string. */
    function Href(n: NodeId): string {
      if n in href then href[n] else ""
    }
  }

  /** Termination measure of the walk up the parent chain. */
  function Height(t: Tree, n: Option<NodeId>): nat {
    match n
    case None => 0
    case Some(e) => 1 + (if e in t.depth then t.depth[e] else 0)
  }

  lemma ParentIsLower(t: Tree, e: NodeId)
    requires t.Valid()
    ensures Height(t, t.ParentOf(e)) < Height(t, Some(e))
  {
  }

  /**
   * The chain the loop visits: elem, its parent, its grandparent, ..., stopping
   * before `document` or a missing parent.
   */
  ghost function Chain(t: Tree, elem: Option<NodeId>): seq<NodeId>
    requires t.Valid()
    decreases Height(t, elem)
  {
    match elem
    case None => []
    case Some(e) =>
      if e == t.document then []
      else
        ParentIsLower(t, e);
        [e] + Chain(t, t.ParentOf(e))
  }

  /** The closest node on the chain that carries the marker. */
  function Closest(t: Tree, elem: Option<NodeId>, marker: string): Option<NodeId>
    requires t.Valid()
    decreases Height(t, elem)
  {
    match elem
    case None => None
    case Some(e) =>
      if e == t.document then None
      else if t.Matches(e, marker) then Some(e)
      else
        ParentIsLower(t, e);
        Closest(t, t.ParentOf(e), marker)
  }

  /**
   * Closest finds the FIRST matching node of the chain, and finds nothing
   * exactly when no node of the chain matches.
   */
  lemma {:induction false} ClosestIsFirstMatch(t: Tree, elem: Option<NodeId>, marker: string)
    requires t.Valid()
    ensures var r := Closest(t, elem, marker); var c := Chain(t, elem);
      && (r == None <==> forall k :: 0 <= k < |c| ==> !t.Matches(c[k], marker))
      && (r.Some? ==> exists k :: 0 <= k < |c| && c[k] == r.value && t.Matches(r.value, marker)
                        && forall j :: 0 <= j < k ==> !t.Matches(c[j], marker))
    decreases Height(t, elem)
  {
    match elem
    case None =>
    case Some(e) =>
      if e != t.document {
        ParentIsLower(t, e);
        var rest := Chain(t, t.ParentOf(e));
        assert Chain(t, elem) == [e] + rest;
        if !t.Matches(e, marker) {
          var pe := t.ParentOf(e);
          ClosestIsFirstMatch(t, pe, marker);
          assert Closest(t, pe, marker) == None <==>
            forall k :: 0 <= k < |Chain(t, pe)| ==> !t.Matches(Chain(t, pe)[k], marker);
          var c := Chain(t, elem);
          assert forall k :: 0 <= k < |c| ==> c[k] == e || c[k] in rest;
          var r := Closest(t, elem, marker);
          if r.Some? {
            var k :| 0 <= k < |rest| && rest[k] == r.value && t.Matches(r.value, marker)
                     && forall j :: 0 <= j < k ==> !t.Matches(rest[j], marker);
            assert Chain(t, elem)[k + 1] == r.value;
          }
        } else {
          assert Chain(t, elem)[0] == e;
        }
      }
  }

  /**
   * getClosest: walk up from elem while the cursor is neither null nor the
   * document, returning the first node that matches, or null.
   */
  method GetClosest(t: Tree, elem: Option<NodeId>, marker: string) returns (r: Option<NodeId>)
    requires t.Valid()
    ensures r == Closest(t, elem, marker)
    ensures r.Some? ==> t.Matches(r.value, marker) && r.value != t.document
  {
    var cur := elem;
    while cur.Some? && cur.value != t.document
      invariant Closest(t, cur, marker) == Closest(t, elem, marker)
      decreases Height(t, cur)
    {
      if t.Matches(cur.value, marker) {
        return cur;
      }
      ParentIsLower(t, cur.value);
      cur := t.ParentOf(cur.value);
    }
    return None;
  }

  /**
   * The `Element.prototype.matches` fallback: scan the `querySelectorAll`
   * results from the last one down until the element itself is found.
   */
  method MatchesFallback(results: seq<NodeId>, self: NodeId) returns (found: bool)
    ensures found <==> self in results
  {
    var i := |results| - 1;
    while i >= 0 && results[i] != self
      invariant -1 <= i < |results|
      invariant forall k :: i < k < |results| ==> results[k] != self
    {
      i := i - 1;
    }
    found := i > -1;
  }
}

=== FILE: fetch.dfy ===
/**
 * The outcome rule of `getContent` in js/bundle.js: the XHR's
 * `onreadystatechange` handler settles a promise once the request is DONE
 * (readyState 4 of the WHATWG XMLHttpRequest Standard), fulfilling it for the
 * 2xx (Successful) status class of section 15.3 of RFC 9110 and rejecting it
 * with the status and status text otherwise.
 */
module Fetch {
  import opened Wrappers

  /** `XMLHttpRequest.DONE`. */
  const Done := 4

  /** What one call of the `onreadystatechange` handler does. */
  datatype Settlement = Wait | Resolve | Reject(status: int, statusText: string)

  /** The 2xx class: 200 <= status < 300. */
  predicate IsSuccessful(status: int) {
    200 <= status < 300
  }

  /** The handler: nothing before DONE; at DONE resolve on 2xx, else reject with {status, statusText}. */
  function OnReadyStateChange(readyState: int, status: int, statusText: string): (r: Settlement)
    ensures readyState != Done <==> r == Wait
    ensures r == Resolve <==> readyState == Done && IsSuccessful(status)
    ensures r.Reject? ==> r.status == status && r.statusText == statusText && !IsSuccessful(status)
  {
    if readyState != Done then Wait
    else if IsSuccessful(status) then Resolve
    else Reject(status, statusText)
  }

  /** `request.open(method || 'GET', ...)`: a missing or empty method means GET. */
  function RequestMethod(verb: Option<string>): (r: string)
    ensures r != ""
    ensures verb.Some? && verb.value != "" ==> r == verb.value
    ensures verb.None? || verb.value == "" ==> r == "GET"
  {
    match verb
    case Some(m) => if m != "" then m else "GET"
    case None => "GET"
  }

  /** One firing of `onreadystatechange`, with the request's state at that moment. */
  datatype Change = Change(readyState: int, status: int, statusText: string)

  /** The promise `getContent` returns. */
  datatype Promise = Pending | Fulfilled | Rejected(status: int, statusText: string)

  /** A settled promise ignores later `resolve`/`reject` calls. */
  function Deliver(p: Promise, c: Change): Promise {
    if !p.Pending? then p
    else
      match OnReadyStateChange(c.readyState, c.status, c.statusText)
      case Wait => Pending
      case Resolve => Fulfilled
      case Reject(s, t) => Rejected(s, t)
  }

  /** The promise after the handler has run for each change in turn. */
  function Replay(p: Promise, cs: seq<Change>): Promise
    decreases |cs|
  {
    if cs == [] then p else Replay(Deliver(p, cs[0]), cs[1..])
  }

  /** Index of the first change at readyState DONE, if any. */
  function FirstDone(cs: seq<Change>): (r: Option<nat>)
    ensures r.Some? ==> (r.value < |cs| && cs[r.value].readyState == Done
                         && forall j :: 0 <= j < r.value ==> cs[j].readyState != Done)
    ensures r.None? ==> forall j :: 0 <= j < |cs| ==> cs[j].readyState != Done
  {
    if cs == [] then None
    else if cs[0].readyState == Done then Some(0)
    else match FirstDone(cs[1..])
      case None => None
      case Some(i) => Some(i + 1)
  }

  /** Once settled, a promise stays as it is whatever the handler does next. */
  lemma {:induction false} SettledIsFinal(p: Promise, cs: seq<Change>)
    requires !p.Pending?
    ensures Replay(p, cs) == p
  {
    if cs != [] {
      SettledIsFinal(Deliver(p, cs[0]), cs[1..]);
    }
  }

  /**
   * Exactly one settlement per request: the promise is decided by the first
   * DONE change alone, and stays pending while there is none.
   */
  lemma {:induction false} FirstDoneDecides(cs: seq<Change>)
    ensures match FirstDone(cs)
      case None => Replay(Pending, cs) == Pending
      case Some(i) => Replay(Pending, cs) == Deliver(Pending, cs[i])
  {
    if cs != [] {
      if cs[0].readyState == Done {
        SettledIsFinal(Deliver(Pending, cs[0]), cs[1..]);
      } else {
        FirstDoneDecides(cs[1..]);
      }
    }
  }
}

=== FILE: history.dfy ===
/**
 * Session history as `updateHistory` in js/bundle.js drives it: a sequence
 * of (title, url) entries and a cursor on the current one. `pushState`
 * drops the entries after the cursor and appends; `replaceState` overwrites
 * the current entry. The current entry's url is `location.href`.
 */
module SessionHistory {

  datatype Entry = Entry(title: string, url: string)

  datatype History = History(entries: seq<Entry>, cursor: nat) {
    ghost predicate Valid() {
      cursor < |entries|
    }

    function Current(): Entry
      requires Valid()
    {
      entries[cursor]
    }
  }

  /** `history.pushState(null, title, url)`. */
  function Push(h: History, e: Entry): (r: History)
    requires h.Valid()
    ensures r.Valid() && r.Current() == e
    ensures |r.entries| == h.cursor + 2 && r.cursor == |r.entries| - 1
    ensures r.entries[..h.cursor + 1] == h.entries[..h.cursor + 1]
  {
    History(h.entries[..h.cursor + 1] + [e], h.cursor + 1)
  }

  /** `history.replaceState(null, title, url)`. */
  function Replace(h: History, e: Entry): (r: History)
    requires h.Valid()
    ensures r.Valid() && r.Current() == e
    ensures |r.entries| == |h.entries| && r.cursor == h.cursor
    ensures forall k :: 0 <= k < |h.entries| && k != h.cursor ==> r.entries[k] == h.entries[k]
  {
    History(h.entries[h.cursor := e], h.cursor)
  }

  /** updateHistory: replace during a popstate navigation, push otherwise. */
  function UpdateHistory(h: History, isPopstate: bool, title: string, url: string): (r: History)
    requires h.Valid()
    ensures r.Valid() && r.Current() == Entry(title, url)
    ensures isPopstate ==> |r.entries| == |h.entries| && r.cursor == h.cursor
    ensures isPopstate ==> forall k :: 0 <= k < |h.entries| && k != h.cursor ==> r.entries[k] == h.entries[k]
    ensures !isPopstate ==> r.cursor == h.cursor + 1 && r.entries[..r.cursor] == h.entries[..r.cursor]
    ensures !isPopstate ==> |r.entries| == h.cursor + 2
  {
    if isPopstate then Replace(h, Entry(title, url)) else Push(h, Entry(title, url))
  }

  /** A back/forward traversal by the browser: only the cursor moves. */
  function Traverse(h: History, to: nat): (r: History)
    requires h.Valid() && to < |h.entries|
    ensures r.Valid() && r.entries == h.entries && r.Current() == h.entries[to]
  {
    h.(cursor := to)
  }

  /** Going back after a push lands on the entry that was current before it. */
  lemma BackAfterPush(h: History, e: Entry)
    requires h.Valid()
    ensures Traverse(Push(h, e), h.cursor).Current() == h.Current()
  {
    assert Push(h, e).entries[h.cursor] == h.entries[..h.cursor + 1][h.cursor];
  }
}

=== FILE: mobilenav.dfy ===
/**
 * The mobile-navigation state of js/bundle.js: the `aria-expanded` string on
 * the toggle button, the `aria-hidden` string on the nav and whether the body
 * has the `is-inactive` class. The attributes are strings, as in the DOM, so
 * values other than "true" and "false" are possible and handled as the code
 * handles them.
 */
module MobileNav {

  const InactiveClass := "is-inactive"
  const SmallBreakpoint := "small"

  /** A snapshot of the three facets. */
  datatype NavState = NavState(expanded: string, hidden: string, inactive: bool)

  predicate IsBool(attr: string) {
    attr == "true" || attr == "false"
  }

  /** The nav is open when `aria-hidden` reads exactly "false". */
  predicate IsOpen(s: NavState) {
    s.hidden == "false"
  }

  /** Button and nav agree: expanded exactly when the nav is open. */
  predicate InStep(s: NavState) {
    (s.expanded == "true") == IsOpen(s)
  }

  /** toggleMobileNavigation. */
  function Toggled(s: NavState): (r: NavState)
    ensures (r.expanded == "true") == (s.expanded == "false")
    ensures IsOpen(r) == (s.hidden == "true")
    ensures IsBool(r.expanded) && IsBool(r.hidden)
    ensures r.inactive == IsOpen(r)
  {
    NavState(
      if s.expanded == "false" then "true" else "false",
      if s.hidden == "true" then "false" else "true",
      s.hidden == "true")
  }

  /** Toggling twice gives back both attributes when they start as booleans. */
  lemma ToggleTwice(s: NavState)
    requires IsBool(s.expanded) && IsBool(s.hidden)
    ensures var t := Toggled(Toggled(s));
      t.expanded == s.expanded && t.hidden == s.hidden && t.inactive == IsOpen(s)
  {
  }

  /** Toggling keeps button and nav in step, and only flips the open state of boolean attributes. */
  lemma ToggleKeepsInStep(s: NavState)
    requires IsBool(s.expanded) && IsBool(s.hidden) && InStep(s)
    ensures InStep(Toggled(s)) && IsOpen(Toggled(s)) != IsOpen(s)
  {
  }

  /**
   * Boolean attributes that start out of step stay out of step: each is
   * flipped by its own test, never set from the other.
   */
  lemma ToggleKeepsOutOfStep(s: NavState)
    requires IsBool(s.expanded) && IsBool(s.hidden) && !InStep(s)
    ensures !InStep(Toggled(s)) && IsOpen(Toggled(s)) != IsOpen(s)
  {
  }

  /** resizeEventHandler: an open nav on the small breakpoint is closed. */
  function Collapsed(s: NavState, breakpoint: string): (r: NavState)
    ensures IsOpen(s) && breakpoint == SmallBreakpoint ==>
      r.hidden == "true" && r.expanded == "false" && !r.inactive
    ensures !(IsOpen(s) && breakpoint == SmallBreakpoint) ==> r == s
    ensures breakpoint == SmallBreakpoint ==> !IsOpen(r)
  {
    if IsOpen(s) && breakpoint == SmallBreakpoint then NavState("false", "true", false) else s
  }

  /** Collapsing twice is collapsing once. */
  lemma CollapseIdempotent(s: NavState, breakpoint: string)
    ensures Collapsed(Collapsed(s, breakpoint), breakpoint) == Collapsed(s, breakpoint)
  {
  }

  /** keydownEventHandler: Escape (or the legacy "Esc") toggles, but only an open nav. */
  function AfterKey(s: NavState, key: string): (r: NavState)
    ensures (key == "Escape" || key == "Esc") && IsOpen(s) ==>
      && !IsOpen(r) && r.hidden == "true" && !r.inactive
      && IsBool(r.expanded) && ((r.expanded == "true") == (s.expanded == "false"))
    ensures !((key == "Escape" || key == "Esc") && IsOpen(s)) ==> r == s
  {
    if (key == "Escape" || key == "Esc") && IsOpen(s) then Toggled(s) else s
  }

  /** Escape never opens the nav. */
  lemma EscapeNeverOpens(s: NavState, key: string)
    requires !IsOpen(s)
    ensures AfterKey(s, key) == s
  {
  }

  /** The initial setting: hidden on the small breakpoint, shown otherwise; nothing else. */
  function Initial(s: NavState, breakpoint: string): (r: NavState)
    ensures IsOpen(r) <==> breakpoint != SmallBreakpoint
    ensures IsBool(r.hidden)
    ensures r.expanded == s.expanded && r.inactive == s.inactive
  {
    s.(hidden := if breakpoint == SmallBreakpoint then "true" else "false")
  }

  /** The toggle button, the nav and the body, as far as their nav attributes go. */
  class NavToggle {
    var expanded: string
    var hidden: string
    var inactive: bool

    function State(): NavState
      reads this
    {
      NavState(expanded, hidden, inactive)
    }

    constructor(s: NavState)
      ensures State() == s
    {
      expanded := s.expanded;
      hidden := s.hidden;
      inactive := s.inactive;
    }

    method Toggle()
      modifies this
      ensures State() == Toggled(old(State()))
    {
      if expanded == "false" {
        expanded := "true";
      } else {
        expanded := "false";
      }
      if hidden == "true" {
        hidden := "false";
        inactive := true;
      } else {
        hidden := "true";
        inactive := false;
      }
    }

    method ResizeEventHandler(breakpoint: string)
      modifies this
      ensures State() == Collapsed(old(State()), breakpoint)
    {
      if hidden == "false" && breakpoint == SmallBreakpoint {
        hidden := "true";
        expanded := "false";
        inactive := false;
      }
    }

    method KeydownEventHandler(key: string)
      modifies this
      ensures State() == AfterKey(old(State()), key)
    {
      if key == "Escape" || key == "Esc" {
        if hidden == "false" {
          Toggle();
        }
      }
    }

    method SetInitial(breakpoint: string)
      modifies this
      ensures State() == Initial(old(State()), breakpoint)
    {
      if breakpoint == SmallBreakpoint {
        hidden := "true";
      } else {
        hidden := "false";
      }
    }
  }
}

=== FILE: pipeline.dfy ===
/**
 * The navigation pipeline of js/bundle.js: `loadContent`, the page-link
 * branch of `clickEventHandler`, `popstateEventHandler`, `updateHistory`,
 * and the handlers that drive the mobile nav, all over one page.
 *
 * A run goes: trigger (click or popstate) -> request in flight -> the
 * request settles (FetchRejected or FetchResolved) -> the exit animation of
 * the old content ends (ExitAnimationEnd: swap) -> the enter animation of the
 * new content ends (EnterAnimationEnd: observers re-initialised). The model
 * covers one run at a time; each step is a method of `Page`.
 */
module Pipeline {
  import opened Wrappers
  import opened Animation
  import opened MobileNav
  import opened SessionHistory
  import opened ActiveNav
  import Text
  import Dom
  import Fetch

  const ExitAnimation := "fadeOutUp"
  const EnterAnimation := "fadeInUp"
  const PageLinkMarker := "data-page-link"
  const NavToggleMarker := "data-nav-toggle"

  /** The two callbacks `loadContent` hands to `animate`: the swap, and the observer re-init. */
  datatype Callback = Swap | Reinit

  datatype LoadError = HttpError(status: int, statusText: string) | TypeError

  /** A console line: the `.catch` handler's log, or an exception nothing catches. */
  datatype ConsoleLine = Logged(error: LoadError) | Uncaught(error: LoadError)

  /** The `[data-main-content]` element of a fetched document, before it is attached. */
  datatype ContentMarkup = ContentMarkup(hidden: bool, classes: set<string>)

  /** A fetched document after parsing: its `<title>` text and its main content, each possibly absent. */
  datatype ParsedDoc = ParsedDoc(title: Option<string>, content: Option<ContentMarkup>)

  function ExitListener(): Listener<Callback> {
    Listener(ExitAnimation, true, Some(Swap))
  }

  function EnterListener(): Listener<Callback> {
    Listener(EnterAnimation, false, Some(Reinit))
  }

  /** checkMedia(): the breakpoint name CSS exposes, unquoted. */
  function Breakpoint(media: string): (r: string)
    ensures |r| <= |media|
    ensures forall k :: 0 <= k < |r| ==> !Text.IsSpace(r[k]) && r[k] != '\\'
  {
    Text.RemoveQuotes(Text.Str(media)).text
  }

  /** A breakpoint name CSS writes as a quoted word reads as the bare word. */
  lemma BreakpointUnquotes(open: char, name: string, close: char)
    requires Text.IsQuote(open) && Text.IsQuote(close)
    requires forall k :: 0 <= k < |name| ==> Text.Ordinary(name[k])
    ensures Breakpoint([open] + name + [close]) == name
  {
    Text.UnquotesAnyWord([open], name, [close]);
  }

  /** `document.querySelector('[data-main-content]')`, searched among main's children. */
  function FirstMarked(s: seq<Element<Callback>>): (r: Option<Element<Callback>>)
    ensures r.Some? ==> r.value in s && r.value.marked
    ensures r.None? <==> forall i :: 0 <= i < |s| ==> !s[i].marked
    ensures r.Some? ==> exists i :: 0 <= i < |s| && s[i] == r.value && forall j :: 0 <= j < i ==> !s[j].marked
  {
    if s == [] then None
    else if s[0].marked then Some(s[0])
    else
      var r := FirstMarked(s[1..]);
      assert r.Some? ==> exists i :: 1 <= i < |s| && s[i] == r.value && forall j :: 1 <= j < i ==> !s[j].marked;
      r
  }

  /** No element occurs twice, as in a DOM child list. */
  predicate Distinct<T(==)>(s: seq<T>) {
    s == [] || (s[0] !in s[1..] && Distinct(s[1..]))
  }

  /** In a list without repeats, two positions hold two different elements. */
  lemma {:induction false} DistinctAt<T>(s: seq<T>, i: nat, j: nat)
    requires Distinct(s) && i < |s| && j < |s| && i != j
    ensures s[i] != s[j]
  {
    if i > 0 && j > 0 {
      DistinctAt(s[1..], i - 1, j - 1);
    } else if i == 0 {
      assert s[j] == s[1..][j - 1];
    } else {
      assert s[i] == s[1..][i - 1];
    }
  }

  /** Appending an element not in the list keeps it without repeats. */
  lemma {:induction false} DistinctAppend<T>(s: seq<T>, y: T)
    requires Distinct(s) && y !in s
    ensures Distinct(s + [y])
  {
    if s != [] {
      DistinctAppend(s[1..], y);
      assert (s + [y])[1..] == s[1..] + [y];
    }
  }

  /** The child list after `removeChild(x)`. */
  function Without<T(==)>(s: seq<T>, x: T): (r: seq<T>)
    ensures forall i :: 0 <= i < |r| ==> r[i] in s && r[i] != x
    ensures forall i :: 0 <= i < |s| && s[i] != x ==> s[i] in r
    ensures |r| <= |s|
    ensures x !in s ==> r == s
  {
    if s == [] then []
    else if s[0] == x then Without(s[1..], x)
    else [s[0]] + Without(s[1..], x)
  }

  /** Removing a child keeps a list without repeats without repeats. */
  lemma {:induction false} WithoutKeepsDistinct<T>(s: seq<T>, x: T)
    requires Distinct(s)
    ensures Distinct(Without(s, x))
  {
    if s != [] {
      WithoutKeepsDistinct(s[1..], x);
      if s[0] != x {
        var rest := Without(s[1..], x);
        assert s[0] !in rest;
        assert ([s[0]] + rest)[1..] == rest;
      }
    }
  }

  /** A child that occurs once is cut out of its place; the others keep their order. */
  lemma {:induction false} WithoutOnce<T>(s: seq<T>, x: T, i: nat)
    requires i < |s| && s[i] == x
    requires forall j :: 0 <= j < |s| && j != i ==> s[j] != x
    ensures Without(s, x) == s[..i] + s[i + 1..]
  {
    if i == 0 {
      assert x !in s[1..];
    } else {
      var t := s[1..];
      assert forall j :: 0 <= j < |t| && j != i - 1 ==> t[j] != x;
      WithoutOnce(t, x, i - 1);
      assert s[0] != x;
      assert Without(s, x) == [s[0]] + (t[..i - 1] + t[i..]);
      ConsSplit(s, i);
    }
  }

  /** s[0] in front of the pieces of s[1..] around i - 1 gives the pieces of s around i. */
  lemma ConsSplit<T>(s: seq<T>, i: nat)
    requires 0 < i < |s|
    ensures [s[0]] + (s[1..][..i - 1] + s[1..][i..]) == s[..i] + s[i + 1..]
  {
    assert s[1..][..i - 1] == s[1..i];
    assert s[1..][i..] == s[i + 1..];
    assert [s[0]] + s[1..i] == s[..i];
  }

  /** In a list without repeats, removing a child cuts it out of its place. */
  lemma RemovedInPlace<T>(s: seq<T>, x: T)
    requires Distinct(s)
    ensures forall i :: 0 <= i < |s| && s[i] == x ==> Without(s, x) == s[..i] + s[i + 1..]
  {
    forall i | 0 <= i < |s| && s[i] == x
      ensures Without(s, x) == s[..i] + s[i + 1..]
    {
      forall j | 0 <= j < |s| && j != i
        ensures s[j] != x
      {
        DistinctAt(s, i, j);
      }
      WithoutOnce(s, x, i);
    }
  }

  class Page {
    /** `document.title`. */
    var title: string
    /** The session history; its current entry's url is `location.href`. */
    var history: History
    /** The children of the `[data-main-wrapper]` element. */
    var main: seq<Element<Callback>>
    /** The links of the nav. */
    const navItems: array<NavItem>
    /** The toggle button, the nav and the body. */
    const toggle: NavToggle
    /** The `content` value CSS gives `body::after`; it changes with the viewport. */
    var media: string
    /** The module-level `isPopstate` flag. */
    var isPopstate: bool
    /** What has been written to the console. */
    var console: seq<ConsoleLine>
    /** How many times `window.scrollTo(0, 0)` has run. */
    var scrolls: nat
    /** The url of the request in flight, if any. */
    var loading: Option<string>
    /** Old content whose exit animation (and swap callback) is pending. */
    var exiting: Element?<Callback>
    /** New content whose enter animation (and re-init callback) is pending; it is
        also the `newContent` the pending swap callback will append. */
    var entering: Element?<Callback>
    /** The content the IntersectionObserver was last re-initialised on (None: the whole initial page). */
    var observerRoot: Option<Element<Callback>>

    /** The elements the pipeline may touch. */
    ghost function Content(): set<Element<Callback>>
      reads this
    {
      (set e | e in main) + (if entering != null then {entering} else {})
    }

    ghost predicate Valid()
      reads this, Content()
    {
      && history.Valid()
      && Distinct(main)
      && (forall e :: e in main && e != exiting && e != entering ==> e.listeners == [])
      && (exiting != null ==>
            && exiting in main && exiting.marked && exiting != entering
            && exiting.listeners == [ExitListener()]
            && (entering != null ==> entering !in main))
      && (entering != null ==> entering.listeners == [EnterListener()])
    }

    /** No animation callback can still run. */
    ghost predicate Quiescent()
      reads this
    {
      exiting == null && (entering == null || entering !in main)
    }

    /** No run in progress. */
    ghost predicate Idle()
      reads this
    {
      loading.None? && Quiescent()
    }

    /** `location.href`. */
    function Location(): string
      reads this
      requires history.Valid()
    {
      history.Current().url
    }

    /**
     * Page start-up: the current history entry is replaced by (title, location),
     * and the nav is hidden on the small breakpoint and shown otherwise.
     */
    constructor(title0: string, h0: History, main0: seq<Element<Callback>>, items: array<NavItem>,
                toggle0: NavToggle, media0: string)
      requires h0.Valid()
      requires forall e :: e in main0 ==> e.listeners == []
      requires Distinct(main0)
      modifies toggle0
      ensures Valid() && Idle()
      ensures title == title0 && main == main0 && media == media0
      ensures history == Replace(h0, Entry(title0, h0.Current().url))
      ensures navItems == items && toggle == toggle0
      ensures toggle.State() == Initial(old(toggle0.State()), Breakpoint(media0))
      ensures !isPopstate && console == [] && scrolls == 0 && observerRoot == None
      ensures loading == None && exiting == null && entering == null
    {
      title := title0;
      history := Replace(h0, Entry(title0, h0.Current().url));
      main := main0;
      navItems := items;
      toggle := toggle0;
      media := media0;
      isPopstate := false;
      console := [];
      scrolls := 0;
      loading := None;
      exiting := null;
      entering := null;
      observerRoot := None;
      new;
      toggle.SetInitial(Breakpoint(media));
    }

    /** loadContent(url): the request is issued; nothing else changes yet. */
    method LoadContent(url: string)
      requires Valid() && Idle()
      modifies this
      ensures Valid()
      ensures loading == Some(url)
      ensures title == old(title) && history == old(history) && main == old(main)
      ensures isPopstate == old(isPopstate) && console == old(console) && scrolls == old(scrolls)
      ensures exiting == old(exiting) && entering == old(entering) && media == old(media)
      ensures observerRoot == old(observerRoot)
    {
      loading := Some(url);
    }

    /** The url a click would load: inside a page link, meta key up, and not the current location. */
    function ClickedUrl(dom: Dom.Tree, target: Dom.NodeId, metaKey: bool): Option<string>
      reads this
      requires history.Valid() && dom.Valid()
    {
      var link := Dom.Closest(dom, Some(target), PageLinkMarker);
      if link.Some? && !metaKey && dom.Href(link.value) != Location() then Some(dom.Href(link.value))
      else None
    }

    /**
     * clickEventHandler, nav-toggle and page-link branches: a click inside the
     * toggle toggles the nav; a click inside a page link, without the meta key,
     * prevents the default action and loads the link's url unless it is the
     * current location.
     */
    method ClickEventHandler(dom: Dom.Tree, target: Dom.NodeId, metaKey: bool) returns (prevented: bool)
      requires Valid() && dom.Valid()
      requires ClickedUrl(dom, target, metaKey).Some? ==> Idle()
      modifies this, toggle
      ensures Valid()
      ensures toggle.State() ==
        if Dom.Closest(dom, Some(target), NavToggleMarker).Some? then Toggled(old(toggle.State()))
        else old(toggle.State())
      ensures var link := Dom.Closest(dom, Some(target), PageLinkMarker);
        && prevented == (link.Some? && !metaKey)
        && loading == (if link.Some? && !metaKey && dom.Href(link.value) != old(Location())
                       then Some(dom.Href(link.value)) else old(loading))
      ensures title == old(title) && history == old(history) && main == old(main)
      ensures isPopstate == old(isPopstate) && console == old(console) && scrolls == old(scrolls)
      ensures exiting == old(exiting) && entering == old(entering) && media == old(media)
      ensures observerRoot == old(observerRoot)
    {
      var toggleHit := Dom.GetClosest(dom, Some(target), NavToggleMarker);
      if toggleHit.Some? {
        toggle.Toggle();
      }
      prevented := false;
      var link := Dom.GetClosest(dom, Some(target), PageLinkMarker);
      if link.Some? {
        if metaKey {
          return;
        }
        prevented := true;
        var url := dom.Href(link.value);
        if url == Location() {
          return;
        }
        LoadContent(url);
      }
    }

    /** popstateEventHandler: set the flag and load `location.href`. */
    method PopstateEventHandler()
      requires Valid() && Idle()
      modifies this
      ensures Valid()
      ensures isPopstate && loading == Some(old(Location()))
      ensures title == old(title) && history == old(history) && main == old(main)
      ensures console == old(console) && scrolls == old(scrolls)
      ensures exiting == old(exiting) && entering == old(entering) && media == old(media)
      ensures observerRoot == old(observerRoot)
    {
      var url := Location();
      isPopstate := true;
      LoadContent(url);
    }

    /** The browser's back/forward traversal, which precedes a popstate event. */
    method Traverse(to: nat)
      requires Valid() && to < |history.entries|
      modifies this
      ensures Valid()
      ensures history == SessionHistory.Traverse(old(history), to)
      ensures title == old(title) && main == old(main) && loading == old(loading)
      ensures isPopstate == old(isPopstate) && console == old(console) && scrolls == old(scrolls)
      ensures exiting == old(exiting) && entering == old(entering) && media == old(media)
      ensures observerRoot == old(observerRoot)
    {
      history := SessionHistory.Traverse(history, to);
    }

    /** The request was rejected: one log line, the page stays as it is. */
    method FetchRejected(status: int, statusText: string)
      requires Valid() && loading.Some? && !Fetch.IsSuccessful(status)
      modifies this
      ensures Valid()
      ensures loading == None
      ensures console == old(console) + [Logged(HttpError(status, statusText))]
      ensures title == old(title) && history == old(history) && main == old(main)
      ensures isPopstate == old(isPopstate) && scrolls == old(scrolls)
      ensures exiting == old(exiting) && entering == old(entering) && media == old(media)
      ensures observerRoot == old(observerRoot)
    {
      loading := None;
      console := console + [Logged(HttpError(status, statusText))];
    }

    /**
     * The request was fulfilled: the `.then` handler of loadContent. Without a
     * `<title>` it throws before changing anything and the `.catch` logs once.
     * Otherwise it sets the title, updates history, starts both animations and
     * marks the active nav item; the content itself is not touched yet.
     */
    method FetchResolved(doc: ParsedDoc)
      requires Valid() && loading.Some? && Quiescent()
      modifies this, navItems, Content()
      ensures Valid()
      ensures loading == None && main == old(main) && media == old(media)
      ensures isPopstate == old(isPopstate) && scrolls == old(scrolls) && observerRoot == old(observerRoot)
      ensures doc.title.None? ==>
        && console == old(console) + [Logged(TypeError)]
        && title == old(title) && history == old(history)
        && navItems[..] == old(navItems[..])
        && exiting == old(exiting) && entering == old(entering)
        && forall e :: e in main ==> unchanged(e)
      ensures doc.title.Some? ==>
        var url := old(loading).value;
        var oldContent := FirstMarked(old(main));
        && console == old(console)
        && (forall e :: e in old(main) && Some(e) != oldContent ==> unchanged(e))
        && title == doc.title.value
        && history == SessionHistory.UpdateHistory(old(history), isPopstate, doc.title.value, url)
        && navItems[..] == MarkedAll(old(navItems[..]), url)
        && (exiting == null <==> oldContent.None?)
        && (oldContent.Some? ==>
              && exiting == oldContent.value
              && !exiting.hidden
              && exiting.classes == old(oldContent.value.classes) + {ExitAnimation}
              && exiting.listeners == [ExitListener()])
        && (entering == null <==> doc.content.None?)
        && (doc.content.Some? ==>
              && fresh(entering) && entering !in main && entering.marked
              && !entering.hidden
              && entering.classes == doc.content.value.classes + {EnterAnimation}
              && entering.listeners == [EnterListener()])
    {
      var url := loading.value;
      loading := None;
      var oldContent := FirstMarked(main);
      var newContent: Element?<Callback> := null;
      if doc.content.Some? {
        newContent := new Element(true, doc.content.value.hidden, doc.content.value.classes);
      }
      if doc.title.None? {
        // wrapper.querySelector('title') is null, so reading its text throws
        // a TypeError, which the .catch handler logs.
        console := console + [Logged(TypeError)];
        return;
      }
      var oldElem: Element?<Callback> := if oldContent.Some? then oldContent.value else null;
      ApplyResponse(doc.title.value, url, oldElem, newContent);
    }

    /** The `.then` handler past the title lookup. */
    method ApplyResponse(newTitle: string, url: string, oldElem: Element?<Callback>, newContent: Element?<Callback>)
      requires Valid() && Quiescent()
      requires oldElem != null ==> oldElem in main && oldElem.marked
      requires newContent != null ==> newContent !in main && newContent.marked && newContent.listeners == []
      modifies this`title, this`history, this`exiting, this`entering, navItems, Content(), newContent
      ensures Valid()
      ensures title == newTitle
      ensures history == SessionHistory.UpdateHistory(old(history), isPopstate, newTitle, url)
      ensures navItems[..] == MarkedAll(old(navItems[..]), url)
      ensures exiting == oldElem && entering == newContent
      ensures oldElem != null ==>
        && !oldElem.hidden
        && oldElem.classes == old(oldElem.classes) + {ExitAnimation}
        && oldElem.listeners == [ExitListener()]
      ensures newContent != null ==>
        && !newContent.hidden
        && newContent.classes == old(newContent.classes) + {EnterAnimation}
        && newContent.listeners == [EnterListener()]
      ensures forall e :: e in main && e != oldElem ==> unchanged(e)
    {
      title := newTitle;
      UpdateHistory(newTitle, url);
      StartTransition(oldElem, newContent);
      SetActiveNavItem(navItems, url);
    }

    /** updateHistory(title, url), reading the `isPopstate` flag. */
    method UpdateHistory(newTitle: string, url: string)
      requires history.Valid()
      modifies this`history
      ensures history == SessionHistory.UpdateHistory(old(history), isPopstate, newTitle, url)
    {
      if isPopstate {
        history := Replace(history, Entry(newTitle, url));
      } else {
        history := Push(history, Entry(newTitle, url));
      }
    }

    /** The two `animate` calls of the `.then` handler. */
    method StartTransition(oldElem: Element?<Callback>, newContent: Element?<Callback>)
      requires Valid() && Quiescent()
      requires oldElem != null ==> oldElem in main && oldElem.marked
      requires newContent != null ==> newContent !in main && newContent.marked && newContent.listeners == []
      modifies this`exiting, this`entering, Content(), newContent
      ensures Valid()
      ensures exiting == oldElem && entering == newContent
      ensures oldElem != null ==>
        && !oldElem.hidden
        && oldElem.classes == old(oldElem.classes) + {ExitAnimation}
        && oldElem.listeners == [ExitListener()]
      ensures newContent != null ==>
        && !newContent.hidden
        && newContent.classes == old(newContent.classes) + {EnterAnimation}
        && newContent.listeners == [EnterListener()]
      ensures forall e :: e in main && e != oldElem ==> unchanged(e)
    {
      Animate(oldElem, ExitAnimation, true, Some(Swap));
      Animate(newContent, EnterAnimation, false, Some(Reinit));
      exiting := oldElem;
      entering := newContent;
    }

    /**
     * `animationend` on the old content: its listener runs the swap callback.
     * The old content leaves main and an open nav on the small breakpoint is
     * toggled shut. Then the new content is appended, the window scrolls to the
     * top unless this is a popstate navigation, and the flag is cleared; when
     * there is no new content, `appendChild(null)` throws first and none of
     * that happens.
     */
    method ExitAnimationEnd()
      requires Valid()
      modifies this, toggle, Content()
      ensures Valid()
      ensures old(exiting) == null ==>
        unchanged(this) && unchanged(toggle) && forall e :: e in old(Content()) ==> unchanged(e)
      ensures old(exiting) != null ==>
        var gone: Element<Callback> := old(exiting);
        var arriving := old(entering);
        var rest := Without(old(main), gone);
        && (forall i :: 0 <= i < |old(main)| && old(main)[i] == gone ==>
              rest == old(main)[..i] + old(main)[i + 1..])
        && exiting == null && entering == arriving
        && gone.hidden && gone.listeners == []
        && gone.classes == old(gone.classes) - {ExitAnimation}
        && toggle.State() ==
             (if IsOpen(old(toggle.State())) && Breakpoint(media) == SmallBreakpoint
              then Toggled(old(toggle.State())) else old(toggle.State()))
        && title == old(title) && history == old(history) && loading == old(loading)
        && media == old(media) && observerRoot == old(observerRoot)
        && (forall e :: e in old(main) && e != gone ==> unchanged(e))
        && (arriving != null ==>
              && unchanged(arriving)
              && main == rest + [arriving]
              && !isPopstate
              && scrolls == old(scrolls) + (if old(isPopstate) then 0 else 1)
              && console == old(console))
        && (arriving == null ==>
              && main == rest
              && isPopstate == old(isPopstate)
              && scrolls == old(scrolls)
              && console == old(console) + [Uncaught(TypeError)])
    {
      if exiting == null {
        return;
      }
      FinishExit();
    }

    /** The exit listener at work: it removes itself and runs the swap callback. */
    method FinishExit()
      requires Valid() && exiting != null
      modifies this, toggle, Content()
      ensures Valid()
      ensures
        var gone: Element<Callback> := old(exiting);
        var arriving := old(entering);
        var rest := Without(old(main), gone);
        && (forall i :: 0 <= i < |old(main)| && old(main)[i] == gone ==>
              rest == old(main)[..i] + old(main)[i + 1..])
        && exiting == null && entering == arriving
        && gone.hidden && gone.listeners == []
        && gone.classes == old(gone.classes) - {ExitAnimation}
        && toggle.State() ==
             (if IsOpen(old(toggle.State())) && Breakpoint(media) == SmallBreakpoint
              then Toggled(old(toggle.State())) else old(toggle.State()))
        && title == old(title) && history == old(history) && loading == old(loading)
        && media == old(media) && observerRoot == old(observerRoot)
        && (forall e :: e in old(main) && e != gone ==> unchanged(e))
        && (arriving != null ==>
              && unchanged(arriving)
              && main == rest + [arriving]
              && !isPopstate
              && scrolls == old(scrolls) + (if old(isPopstate) then 0 else 1)
              && console == old(console))
        && (arriving == null ==>
              && main == rest
              && isPopstate == old(isPopstate)
              && scrolls == old(scrolls)
              && console == old(console) + [Uncaught(TypeError)])
    {
      var gone: Element<Callback> := exiting;
      RemovedInPlace(main, gone);
      var called := gone.AnimationEnd();
      assert called == [Swap];
      exiting := null;
      SwapCallback(gone);
    }

    /** The callback loadContent passes to the exit animation. */
    method SwapCallback(gone: Element<Callback>)
      requires Valid() && exiting == null
      requires gone in main && gone != entering && (entering != null ==> entering !in main)
      modifies this`main, this`console, this`scrolls, this`isPopstate, toggle
      ensures Valid()
      ensures toggle.State() ==
        (if IsOpen(old(toggle.State())) && Breakpoint(media) == SmallBreakpoint
         then Toggled(old(toggle.State())) else old(toggle.State()))
      ensures entering != null ==>
        && main == Without(old(main), gone) + [entering]
        && !isPopstate
        && scrolls == old(scrolls) + (if old(isPopstate) then 0 else 1)
        && console == old(console)
      ensures entering == null ==>
        && main == Without(old(main), gone)
        && isPopstate == old(isPopstate)
        && scrolls == old(scrolls)
        && console == old(console) + [Uncaught(TypeError)]
    {
      RemoveChild(gone);
      CollapseOnSmall();
      if entering == null {
        // main.appendChild(null) throws; the rest of the callback never runs.
        console := console + [Uncaught(TypeError)];
        return;
      }
      AppendEntering();
      if !isPopstate {
        scrolls := scrolls + 1;
      }
      isPopstate := false;
    }

    /** `oldContent.parentNode.removeChild(oldContent)`. */
    method RemoveChild(gone: Element<Callback>)
      requires Valid() && exiting == null
      requires gone != entering && (entering != null ==> entering !in main)
      modifies this`main
      ensures Valid() && main == Without(old(main), gone)
      ensures entering != null ==> entering !in main
    {
      WithoutKeepsDistinct(main, gone);
      main := Without(main, gone);
    }

    /** The nav reset of the swap callback: an open nav on the small breakpoint is toggled shut. */
    method CollapseOnSmall()
      modifies toggle
      ensures toggle.State() ==
        (if IsOpen(old(toggle.State())) && Breakpoint(media) == SmallBreakpoint
         then Toggled(old(toggle.State())) else old(toggle.State()))
    {
      if toggle.hidden == "false" && Breakpoint(media) == SmallBreakpoint {
        toggle.Toggle();
      }
    }

    /** `main.appendChild(newContent)`. */
    method AppendEntering()
      requires Valid() && exiting == null && entering != null && entering !in main
      modifies this`main
      ensures Valid() && main == old(main) + [entering]
    {
      var arriving: Element<Callback> := entering;
      DistinctAppend(main, arriving);
      main := main + [arriving];
    }

    /**
     * `animationend` on the new content, which only fires once it is attached:
     * the re-init callback points the observers at the new content.
     */
    method EnterAnimationEnd()
      requires Valid()
      modifies this, Content()
      ensures Valid()
      ensures old(entering) == null || old(entering) !in old(main) ==>
        unchanged(this) && forall e :: e in old(Content()) ==> unchanged(e)
      ensures old(entering) != null && old(entering) in old(main) ==>
        var arriving := old(entering);
        && entering == null && observerRoot == Some(arriving)
        && arriving.listeners == [] && arriving.hidden == old(arriving.hidden)
        && arriving.classes == old(arriving.classes) - {EnterAnimation}
        && main == old(main) && exiting == old(exiting) && media == old(media)
        && (forall e :: e in old(main) && e != arriving ==> unchanged(e))
        && title == old(title) && history == old(history) && loading == old(loading)
        && isPopstate == old(isPopstate) && console == old(console) && scrolls == old(scrolls)
    {
      if entering == null || entering !in main {
        return;
      }
      var arriving := entering;
      var called := arriving.AnimationEnd();
      assert called == [Reinit];
      observerRoot := Some(arriving);
      entering := null;
    }

    /** resizeEventHandler, after the viewport has changed what CSS reports. */
    method ResizeEventHandler(newMedia: string)
      requires Valid()
      modifies this, toggle
      ensures Valid()
      ensures media == newMedia
      ensures toggle.State() == Collapsed(old(toggle.State()), Breakpoint(newMedia))
      ensures title == old(title) && history == old(history) && main == old(main) && loading == old(loading)
      ensures exiting == old(exiting) && entering == old(entering)
      ensures isPopstate == old(isPopstate) && console == old(console) && scrolls == old(scrolls)
      ensures observerRoot == old(observerRoot)
    {
      media := newMedia;
      toggle.ResizeEventHandler(Breakpoint(media));
    }

    /** keydownEventHandler. */
    method KeydownEventHandler(key: string)
      requires Valid()
      modifies toggle
      ensures Valid()
      ensures toggle.State() == AfterKey(old(toggle.State()), key)
    {
      toggle.KeydownEventHandler(key);
    }
  }
}

=== FILE: text.dfy ===
/**
 * The `removeQuotes` helper of js/bundle.js: one global regular-expression
 * replace of  /^['"]+|\s+|\\|(;\s?})+|['"]$/g  by the empty string.
 *
 * A global replace scans the string from left to right. At each position it
 * tries the five alternatives in order; the first that matches is deleted and
 * the scan resumes after it, otherwise the character is kept and the scan
 * moves on by one. `^` only matches at position 0 and `$` only at the end.
 */
module Text {

  /** A JavaScript value as `removeQuotes` sees it: a string or anything else. */
  datatype Value = Str(text: string) | NonString(tag: nat)

  predicate IsQuote(c: char) {
    c == '\'' || c == '"'
  }

  /** The characters of the ECMAScript `\s` class (WhiteSpace and LineTerminator). */
  const SpaceCodes: set<int> := {
    0x09, 0x0A, 0x0B, 0x0C, 0x0D, 0x20, 0xA0, 0x1680,
    0x2000, 0x2001, 0x2002, 0x2003, 0x2004, 0x2005, 0x2006, 0x2007, 0x2008, 0x2009, 0x200A,
    0x2028, 0x2029, 0x202F, 0x205F, 0x3000, 0xFEFF}

  predicate IsSpace(c: char) {
    c as int in SpaceCodes
  }

  /** End of the run of quotes starting at i (alternative `^['"]+`). */
  function QuoteRunEnd(s: string, i: nat): (r: nat)
    requires i <= |s|
    ensures i <= r <= |s|
    ensures forall k :: i <= k < r ==> IsQuote(s[k])
    ensures r == |s| || !IsQuote(s[r])
    decreases |s| - i
  {
    if i < |s| && IsQuote(s[i]) then QuoteRunEnd(s, i + 1) else i
  }

  /** End of the run of whitespace starting at i (alternative `\s+`). */
  function SpaceRunEnd(s: string, i: nat): (r: nat)
    requires i <= |s|
    ensures i <= r <= |s|
    ensures forall k :: i <= k < r ==> IsSpace(s[k])
    ensures r == |s| || !IsSpace(s[r])
    decreases |s| - i
  {
    if i < |s| && IsSpace(s[i]) then SpaceRunEnd(s, i + 1) else i
  }

  /** Length of one `;\s?}` unit at i, or 0 when there is none. */
  function ClosingUnit(s: string, i: nat): (k: nat)
    requires i <= |s|
    ensures k == 0 || k == 2 || k == 3
    ensures i + k <= |s|
    ensures k > 0 ==> s[i] == ';' && s[i + k - 1] == '}'
    ensures k == 3 ==> IsSpace(s[i + 1])
    ensures i + 1 < |s| && s[i] == ';' && s[i + 1] == '}' ==> k == 2
    ensures i + 2 < |s| && s[i] == ';' && IsSpace(s[i + 1]) && s[i + 2] == '}' ==> k == 3
  {
    if i + 1 < |s| && s[i] == ';' && s[i + 1] == '}' then 2
    else if i + 2 < |s| && s[i] == ';' && IsSpace(s[i + 1]) && s[i + 2] == '}' then 3
    else 0
  }

  /** s[i..r] is a chain of whole `;\s?}` units, each found where the previous one ends. */
  predicate UnitChain(s: string, i: nat, r: nat)
    requires i <= r <= |s|
    decreases r - i
  {
    i == r || (ClosingUnit(s, i) > 0 && i + ClosingUnit(s, i) <= r && UnitChain(s, i + ClosingUnit(s, i), r))
  }

  /** End of the run of `;\s?}` units starting at i (alternative `(;\s?})+`). */
  function ClosingRunEnd(s: string, i: nat): (r: nat)
    requires i <= |s|
    ensures i <= r <= |s|
    ensures forall k :: i <= k < r ==> s[k] == ';' || s[k] == '}' || IsSpace(s[k])
    ensures UnitChain(s, i, r)
    ensures ClosingUnit(s, r) == 0
    ensures ClosingUnit(s, i) > 0 ==> r > i
    decreases |s| - i
  {
    var k := ClosingUnit(s, i);
    if k == 0 then i else ClosingRunEnd(s, i + k)
  }

  /** What one step of the scan does at position i: the text it keeps and where it resumes. */
  datatype Step = Step(kept: string, next: nat)

  /**
   * One step of the global replace at position i < |s|: the first alternative
   * that matches is deleted; when none does, s[i] is kept.
   */
  function ScanStep(s: string, i: nat): (r: Step)
    requires i < |s|
    ensures i < r.next <= |s|
    ensures r.kept == [] ==> forall k :: i <= k < r.next ==> !Ordinary(s[k])
    ensures r.kept != [] ==> r.kept == [s[i]] && r.next == i + 1
    ensures forall k :: 0 <= k < |r.kept| ==> !IsSpace(r.kept[k]) && r.kept[k] != '\\'
  {
    if i == 0 && IsQuote(s[0]) then Step("", QuoteRunEnd(s, 0))
    else if IsSpace(s[i]) then Step("", SpaceRunEnd(s, i))
    else if s[i] == '\\' then Step("", i + 1)
    else if ClosingRunEnd(s, i) > i then Step("", ClosingRunEnd(s, i))
    else if IsQuote(s[i]) && i == |s| - 1 then Step("", |s|)
    else Step([s[i]], i + 1)
  }

  /** The output of the global replace from position i on. */
  function Strip(s: string, i: nat): (r: string)
    requires i <= |s|
    ensures |r| <= |s| - i
    ensures forall k :: 0 <= k < |r| ==> !IsSpace(r[k]) && r[k] != '\\'
    decreases |s| - i
  {
    if i == |s| then ""
    else
      var step := ScanStep(s, i);
      step.kept + Strip(s, step.next)
  }

  /**
   * removeQuotes: a string loses its leading quotes, whitespace, backslashes,
   * `;}` runs and one trailing quote; any other value comes back unchanged.
   */
  function RemoveQuotes(v: Value): (r: Value)
    ensures !v.Str? ==> r == v
    ensures v.Str? ==> r.Str? && |r.text| <= |v.text|
    ensures v.Str? ==> forall k :: 0 <= k < |r.text| ==> !IsSpace(r.text[k]) && r.text[k] != '\\'
  {
    match v
    case Str(s) => Str(Strip(s, 0))
    case NonString(_) => v
  }

  /** Number of occurrences of c in s. */
  function Count(s: string, c: char): nat {
    if s == [] then 0 else (if s[0] == c then 1 else 0) + Count(s[1..], c)
  }

  /** A character that none of the five alternatives can delete. */
  predicate Ordinary(c: char) {
    !IsQuote(c) && !IsSpace(c) && c != '\\' && c != ';' && c != '}'
  }

  lemma {:induction false} CountSplit(a: string, b: string, c: char)
    ensures Count(a + b, c) == Count(a, c) + Count(b, c)
  {
    if a == [] {
      assert a + b == b;
    } else {
      assert (a + b)[1..] == a[1..] + b;
      CountSplit(a[1..], b, c);
    }
  }

  /** A stretch that holds no occurrence of c counts nothing. */
  lemma {:induction false} CountAbsent(s: string, c: char)
    requires forall k :: 0 <= k < |s| ==> s[k] != c
    ensures Count(s, c) == 0
  {
    if s != [] {
      CountAbsent(s[1..], c);
    }
  }

  /** Deleting s[i..j], which holds no c, keeps the count of c from i on. */
  lemma SkipKeepsCount(s: string, i: nat, j: nat, c: char)
    requires i <= j <= |s|
    requires forall k :: i <= k < j ==> s[k] != c
    ensures Count(s[i..], c) == Count(s[j..], c)
  {
    assert s[i..] == s[i..j] + s[j..];
    CountSplit(s[i..j], s[j..], c);
    CountAbsent(s[i..j], c);
  }

  /**
   * Every character the pattern cannot touch survives the replace, as often as
   * it occurs: only quotes, whitespace, backslashes, `;` and `}` are deleted.
   */
  lemma {:induction false} StripKeepsOrdinary(s: string, i: nat, c: char)
    requires i <= |s|
    requires Ordinary(c)
    ensures Count(Strip(s, i), c) == Count(s[i..], c)
    decreases |s| - i
  {
    if i < |s| {
      var step := ScanStep(s, i);
      StripKeepsOrdinary(s, step.next, c);
      CountSplit(step.kept, Strip(s, step.next), c);
      StepKeepsCount(s, i, c);
    }
  }

  /** One scan step keeps the count of an ordinary character: what it keeps plus what is left. */
  lemma StepKeepsCount(s: string, i: nat, c: char)
    requires i < |s|
    requires Ordinary(c)
    ensures var step := ScanStep(s, i);
      Count(step.kept, c) + Count(s[step.next..], c) == Count(s[i..], c)
  {
    var step := ScanStep(s, i);
    if step.kept == [] {
      SkipKeepsCount(s, i, step.next, c);
    } else {
      assert s[i..] == step.kept + s[i + 1..];
      CountSplit(step.kept, s[i + 1..], c);
    }
  }

  /** A string holding nothing the pattern matches is returned as it is. */
  lemma {:induction false} StripFixesClean(s: string, i: nat)
    requires i <= |s|
    requires forall k :: 0 <= k < |s| ==> !IsSpace(s[k]) && s[k] != '\\' && s[k] != ';'
    requires |s| > 0 ==> !IsQuote(s[0]) && !IsQuote(s[|s| - 1])
    ensures Strip(s, i) == s[i..]
    decreases |s| - i
  {
    if i < |s| {
      assert ClosingUnit(s, i) == 0;
      assert ScanStep(s, i) == Step([s[i]], i + 1);
      StripFixesClean(s, i + 1);
      assert s[i..] == [s[i]] + s[i + 1..];
    }
  }

  /** The breakpoint name as CSS writes it, `"small"`, comes out as `small`. */
  lemma UnquotesBreakpoint()
    ensures RemoveQuotes(Str("\"small\"")) == Str("small")
  {
    UnquotesAnyWord("\"", "small", "\"");
    assert "\"small\"" == "\"" + "small" + "\"";
  }

  /** A character the scan keeps wherever it stands in s. */
  predicate Inert(s: string, k: nat)
    requires k < |s|
  {
    && !IsSpace(s[k]) && s[k] != '\\' && s[k] != ';'
    && !(IsQuote(s[k]) && (k == 0 || k == |s| - 1))
  }

  /** One scan step at an inert character keeps it. */
  lemma InertStep(s: string, i: nat)
    requires i < |s| && Inert(s, i)
    ensures Strip(s, i) == [s[i]] + Strip(s, i + 1)
  {
    InertScan(s, i);
  }

  /** The scan step at an inert character keeps exactly that character. */
  lemma InertScan(s: string, i: nat)
    requires i < |s| && Inert(s, i)
    ensures ScanStep(s, i) == Step([s[i]], i + 1)
  {
    assert ClosingUnit(s, i) == 0;
  }

  /** Putting s[i] in front of s[i + 1..j] + tail gives s[i..j] + tail. */
  lemma ConsSlice(s: string, i: nat, j: nat, tail: string)
    requires i < j <= |s|
    ensures [s[i]] + (s[i + 1..j] + tail) == s[i..j] + tail
  {
    assert s[i..j] == [s[i]] + s[i + 1..j];
  }

  /** If each t[k] is s[k] in front of t[k + 1], then t[i] is s[i..j] in front of t[j]. */
  lemma {:induction false} ConsChain(s: string, t: seq<string>, i: nat, j: nat)
    requires i <= j <= |s| && |t| == |s| + 1
    requires forall k :: i <= k < j ==> t[k] == [s[k]] + t[k + 1]
    ensures t[i] == s[i..j] + t[j]
    decreases j - i
  {
    if i < j {
      ConsChain(s, t, i + 1, j);
      ConsSlice(s, i, j, t[j]);
    }
  }

  /** Each inert character of a stretch is kept by its own scan step. */
  lemma InertSteps(s: string, i: nat, j: nat)
    requires i <= j <= |s|
    requires forall k :: i <= k < j ==> Inert(s, k)
    ensures forall k :: i <= k < j ==> Strip(s, k) == [s[k]] + Strip(s, k + 1)
  {
    forall k | i <= k < j
      ensures Strip(s, k) == [s[k]] + Strip(s, k + 1)
    {
      InertStep(s, k);
    }
  }

  /** A stretch of inert characters is kept as it is. */
  lemma InertKept(s: string, i: nat, j: nat)
    requires i <= j <= |s|
    requires forall k :: i <= k < j ==> Inert(s, k)
    ensures Strip(s, i) == s[i..j] + Strip(s, j)
  {
    InertSteps(s, i, j);
    var t := seq(|s| + 1, k requires 0 <= k <= |s| => Strip(s, k));
    ConsChain(s, t, i, j);
  }

  /** An inert tail is kept as it is. */
  lemma InertRest(s: string, i: nat)
    requires i <= |s|
    requires forall k :: i <= k < |s| ==> Inert(s, k)
    ensures Strip(s, i) == s[i..]
  {
    InertKept(s, i, |s|);
    assert s[i..|s|] == s[i..];
  }

  /** A run of quotes at the very start is deleted in one step. */
  lemma QuoteRunDeleted(s: string, n: nat)
    requires 0 < n <= |s|
    requires forall k :: 0 <= k < n ==> IsQuote(s[k])
    requires n == |s| || !IsQuote(s[n])
    ensures Strip(s, 0) == Strip(s, n)
  {
    assert QuoteRunEnd(s, 0) == n;
    assert ScanStep(s, 0) == Step("", n);
  }

  /** A quote in the last position, and not the first, is deleted. */
  lemma LastQuoteDeleted(s: string)
    requires |s| >= 2 && IsQuote(s[|s| - 1])
    ensures Strip(s, |s| - 1) == []
  {
    assert ClosingUnit(s, |s| - 1) == 0;
    assert ScanStep(s, |s| - 1) == Step("", |s|);
  }

  /** Where the opening run, the word and the closing run of a quoted word lie. */
  lemma QuotedShape(opens: string, w: string, closes: string)
    requires |opens| >= 1 && |closes| >= 1 && |w| >= 1
    requires forall k :: 0 <= k < |opens| ==> IsQuote(opens[k])
    requires forall k :: 0 <= k < |closes| ==> IsQuote(closes[k])
    requires forall k :: 0 <= k < |w| ==> Ordinary(w[k])
    ensures var s := opens + w + closes;
      && (forall k :: 0 <= k < |opens| ==> IsQuote(s[k]))
      && !IsQuote(s[|opens|])
      && (forall k :: |opens| <= k < |s| - 1 ==> Inert(s, k))
      && IsQuote(s[|s| - 1])
      && s[|opens|..|s| - 1] == w + closes[..|closes| - 1]
  {
    var s := opens + w + closes;
    forall k | |opens| <= k < |s| - 1
      ensures Inert(s, k)
    {
      if k < |opens| + |w| {
        assert s[k] == w[k - |opens|];
      } else {
        assert s[k] == closes[k - |opens| - |w|];
      }
    }
    assert s[|opens|..|s| - 1] == w + closes[..|closes| - 1];
  }

  /**
   * A word of ordinary characters between a run of opening quotes and a run
   * of closing quotes (single or double, in any mix): the whole leading run
   * and the very last quote are deleted, so the other closing quotes remain.
   * A string of quotes alone is one leading run and vanishes.
   */
  lemma UnquotesAnyWord(opens: string, w: string, closes: string)
    requires |opens| >= 1 && |closes| >= 1
    requires forall k :: 0 <= k < |opens| ==> IsQuote(opens[k])
    requires forall k :: 0 <= k < |closes| ==> IsQuote(closes[k])
    requires forall k :: 0 <= k < |w| ==> Ordinary(w[k])
    ensures RemoveQuotes(Str(opens + w + closes)) ==
      Str(if w == [] then [] else w + closes[..|closes| - 1])
  {
    var s := opens + w + closes;
    if w == [] {
      assert forall k :: 0 <= k < |s| ==> IsQuote(s[k]);
      QuoteRunDeleted(s, |s|);
    } else {
      QuotedShape(opens, w, closes);
      QuoteRunDeleted(s, |opens|);
      InertKept(s, |opens|, |s| - 1);
      LastQuoteDeleted(s);
    }
    assert RemoveQuotes(Str(s)) == Str(Strip(s, 0));
  }

  /** The `(;\s?})+` alternative consumes exactly a chain of units that no further unit follows. */
  lemma {:induction false} ClosingRunIsChain(s: string, i: nat, j: nat)
    requires i <= j <= |s|
    requires UnitChain(s, i, j) && ClosingUnit(s, j) == 0
    ensures ClosingRunEnd(s, i) == j
    decreases j - i
  {
    if i < j {
      ClosingRunIsChain(s, i + ClosingUnit(s, i), j);
    }
  }

  /** A chain of units in u is still one in a + u + b: a unit lies wholly inside u. */
  lemma {:induction false} ChainShift(a: string, u: string, b: string, j: nat)
    requires j <= |u| && UnitChain(u, j, |u|)
    ensures UnitChain(a + u + b, |a| + j, |a| + |u|)
    decreases |u| - j
  {
    var s := a + u + b;
    if j < |u| {
      var k := ClosingUnit(u, j);
      assert s[|a| + j] == u[j] && s[|a| + j + 1] == u[j + 1];
      if k == 3 {
        assert s[|a| + j + 2] == u[j + 2];
      }
      assert ClosingUnit(s, |a| + j) == k;
      ChainShift(a, u, b, j + k);
    }
  }

  /** Ordinary characters are inert wherever they stand. */
  lemma OrdinaryInert(s: string, i: nat, j: nat)
    requires i <= j <= |s|
    requires forall k :: i <= k < j ==> Ordinary(s[k])
    ensures forall k :: i <= k < j ==> Inert(s, k)
  {
  }

  /** The scan over ordinary text, one maximal chain of units at i..e, and ordinary text. */
  lemma DropsChainAt(s: string, i: nat, e: nat)
    requires i < e <= |s| && UnitChain(s, i, e)
    requires forall k :: 0 <= k < i ==> Ordinary(s[k])
    requires forall k :: e <= k < |s| ==> Ordinary(s[k])
    ensures RemoveQuotes(Str(s)) == Str(s[..i] + s[e..])
  {
    OrdinaryInert(s, 0, i);
    InertKept(s, 0, i);
    DeletesRunAt(s, i, e);
    OrdinaryInert(s, e, |s|);
    InertRest(s, e);
    assert s[0..i] == s[..i];
    assert RemoveQuotes(Str(s)) == Str(Strip(s, 0));
  }

  /**
   * A `;}` / `; }` run between ordinary text is deleted whole, and the text on
   * both sides is kept.
   */
  lemma DropsClosingRun(w1: string, u: string, w2: string)
    requires forall k :: 0 <= k < |w1| ==> Ordinary(w1[k])
    requires forall k :: 0 <= k < |w2| ==> Ordinary(w2[k])
    requires |u| > 0 && UnitChain(u, 0, |u|)
    ensures RemoveQuotes(Str(w1 + u + w2)) == Str(w1 + w2)
  {
    ChainShift(w1, u, w2, 0);
    OrdinaryAround(w1, u, w2);
    DropsChainAt(w1 + u + w2, |w1|, |w1| + |u|);
  }

  /** In w1 + u + w2, the text before and after u is w1 and w2, ordinary throughout. */
  lemma OrdinaryAround(w1: string, u: string, w2: string)
    requires forall k :: 0 <= k < |w1| ==> Ordinary(w1[k])
    requires forall k :: 0 <= k < |w2| ==> Ordinary(w2[k])
    ensures var s := w1 + u + w2; var e := |w1| + |u|;
      && (forall k :: 0 <= k < |w1| ==> Ordinary(s[k]))
      && (forall k :: e <= k < |s| ==> Ordinary(s[k]))
      && s[..|w1|] == w1 && s[e..] == w2
  {
    var s := w1 + u + w2;
    var e := |w1| + |u|;
    assert forall k :: 0 <= k < |w1| ==> s[k] == w1[k];
    assert forall k :: e <= k < |s| ==> s[k] == w2[k - e];
    assert s[..|w1|] == w1;
    assert s[e..] == w2;
  }

  /** At a `;` that opens a maximal chain of units, one scan step deletes the chain. */
  lemma DeletesRunAt(s: string, i: nat, e: nat)
    requires i < e <= |s| && UnitChain(s, i, e)
    requires e == |s| || Ordinary(s[e])
    ensures Strip(s, i) == Strip(s, e)
  {
    assert ClosingUnit(s, e) == 0;
    ClosingRunIsChain(s, i, e);
    assert ClosingUnit(s, i) > 0;
    assert ScanStep(s, i) == Step("", e);
  }
}

=== FILE: wrappers.dfy ===
/** Optional values, standing in for JavaScript's `null`/`undefined`. */
module Wrappers {

  datatype Option<+T> = None | Some(value: T)
}
